=== FILE: README.md ===
# GeoSentiment core in Dafny

GeoSentiment draws a choropleth map of the French departments. Each
department is coloured by how positive the comments that mention it are.
Two programs make up the system:

- `analysis.py` reads comment files. It finds the departments each comment
  names and scores the comment's polarity. It tallies positive, neutral and
  negative mentions per department, merges the per-file tallies, and writes
  each department's mention count, bucket distribution and average sentiment.
- The browser side (`js/sentiment-data.js`, `js/app.js`) loads those entries.
  It min–max normalises the averages to [0, 1] and paints each department on
  a red → yellow → green scale. It invents a record for any department the
  file lacks. It draws the map once both the region geometry and the
  sentiment data have arrived.

This project models that logic as pure functions over immutable records and
finite maps keyed by department code, and proves its properties:

| module | file | models |
|---|---|---|
| `Common` | common.dfy | `Math.round`, `Option`/`Result`, sums of real sequences |
| `ColorScale` | color_scale.dfy | `getColorFromScale` |
| `Normalization` | normalization.dfy | `normalizeScores` |
| `AnalysisFile` | analysis_file.dfy | one entry of `department_sentiment_analysis.json` |
| `Repository` | repository.dfy | the loader's record construction, the sample fallback, `generateRandomSentiment` |
| `RenderGate` | render_gate.dfy | the two load flags, their listeners and `initApp` |
| `MapView` | map_view.dfy | record lookup and fill in `style`, and the choices made in `showDepartmentInfo` |
| `Departments` | departments.dfy | `departments` and `departments_reverse` |
| `FileTally` | tally.dfy | `find_departments`, `analyze_sentiment`, `process_file` |
| `Aggregate` | aggregate.dfy | the merge and the average in `main` |
| `Pipeline` | pipeline.dfy | the analysis output fed to the map's loader |

Modelling choices:

- Scores are `real`, and `Math.round(x)` is `Floor(x + 0.5)`.
- Colours are integer triples rather than `rgb(…)` strings.
- The two `Math.random()` draws of the generator are parameters.
- Foreign code is passed in as parameters and left uninterpreted:
  - department detection is a predicate `matches(code, text)` (regular
    expressions over accent-stripped text);
  - polarity scoring is a function `polarity(text)` (TextBlob).
- An unreadable file or source is `None`.
- Normalisation when every raw score is equal: `normalizeScores` divides by
  zero there and stores NaN scores. `NormalizeScores` returns
  `Failure(ZeroRange)` instead. An empty set normalises to an empty map, as
  in `normalizeScores`.
- Which map the generator writes to depends on how loading went.
  - After a successful load, the published map (`window.sentimentData`) and
    the generator's private map are the same object.
  - After the fallback, the published map is the one-department sample. The
    generator still consults and extends its own private map, which starts
    empty.
  - `Repository.Repo` models both cases. `MapView.ResolveStable` shows that a
    department's record stays stable in both.

Behaviours the model keeps exactly as the code has them:

- A repeated load event re-renders the map. The gate does not guard against
  it, and `RenderGate.RendersExactlyWhenBothSeen` states this.
- The generator's two count ratios add up to 0.5 + 0.1·draw, which is at
  most 0.6. Its idempotence check looks at its private map, not at the
  published one.
- The panel shows the raw score as "N/A" whenever that score is exactly 0,
  because `showDepartmentInfo` tests the score for truthiness.

## Model

| member | source | states |
|---|---|---|
| Common.Round | js/sentiment-data.js:16-21 | the rounded value is within half a unit of its argument, on the upper side at a tie |
| Common.SumAppend | analysis.py:178 | Python's `sum` of a concatenation is the sum of the two parts |
| Common.SumBounds | analysis.py:178 | when every element lies in [lo,hi] the sum lies between n·lo and n·hi |
| ColorScale.ColorFor | js/sentiment-data.js:11-26 | blue is 0; red is 255 below 0.5 and green is 255 from 0.5 up; the varying channel is within ½ of the exact gradient value |
| ColorScale.Endpoints | js/sentiment-data.js:11-26 | scores 0, 0.5 and 1 are painted (255,0,0), (255,255,0) and (0,255,0) |
| ColorScale.ChannelsInRange | js/sentiment-data.js:13-25 | every score in [0,1] gets channels in [0,255] |
| ColorScale.Monotone | js/sentiment-data.js:13-25 | on [0,1] a higher score never has less green or more red |
| ColorScale.ContinuousAtMidpoint | js/sentiment-data.js:13-25 | both segments meet at yellow: every score within 0.0009 of 0.5 is exactly yellow |
| Normalization.ScoreBounds | js/sentiment-data.js:31-38 | returns the least and greatest raw score, each attained by some department, or None exactly for an empty set |
| Normalization.RescaleFacts | js/sentiment-data.js:43-46 | the rescaling maps [min,max] into [0,1], sends min to 0 and max to 1, and preserves order |
| Normalization.RescaleAll | js/sentiment-data.js:43-50 | same keys; raw fields unchanged; scores in [0,1]; min-score departments get 0 and max-score ones 1; order preserved; colour is the colour of the new score |
| Normalization.NormalizeScores | js/sentiment-data.js:29-53 | empty in, empty out; fails exactly when all raw scores are equal; otherwise the scores are the min–max rescaling of the raw scores (min to 0, max to 1, order kept, `(raw - min) / (max - min)`), raw fields are kept, and each colour is that of the new score |
| Normalization.ThreeDepartmentExample | js/sentiment-data.js:43-46 | raw scores -0.1, 0.046, 0.2 normalise to 0, ≈0.487 and 1 |
| Repository.BuildRawRecords | js/sentiment-data.js:67-84 | one raw record per entry, same keys, name, average, counts and mentions carried over field by field |
| Repository.SampleRecordFacts | js/sentiment-data.js:123-141 | the fallback Paris record is painted (163,255,0) and its counts add up to its total |
| Repository.LoadSentimentData | js/sentiment-data.js:56-120 | an unreadable source yields the sample fallback with an empty private map; a readable one publishes one record per entry with its fields, whose scores are the min–max rescaling of the entries' averages (min to 0, max to 1, order kept, the affine formula) painted with their own colour; it fails exactly when the source is non-empty and all averages are equal |
| Repository.RandomRecord | js/sentiment-data.js:154-172 | the draw itself is the displayed score, unnormalised, with its colour; the raw score is 0.2·draw − 0.1; the total is floor(1000·mentionDraw) + 500; positive and negative are the floors of the total times 0.2 + 0.3·draw and 0.1 + 0.2·(1 − draw); neutral takes the rest, so the counts add up to the total |
| Repository.RandomRecordPlausible | js/sentiment-data.js:154-172 | for draws in [0,1): total in [500,1500), no negative count, raw score in [-0.1,0.1), valid colour |
| Repository.Generate | js/sentiment-data.js:151-175 | a present code returns its record and leaves the store alone; a fresh code is inserted with the invented record; the new key maps to the returned record and every other key is unchanged |
| Repository.GenerateIdempotent | js/sentiment-data.js:151-152 | a second request for the same code, with any name and draws, returns the same record and store |
| Repository.GenerateKeepsWellPainted | js/sentiment-data.js:163-172 | with a score draw in [0,1), generation keeps every record of both maps at a score in [0,1] painted with that score's colour |
| Repository.GenerateIn | js/sentiment-data.js:151-175 | the generator acts on its private map exactly as `Generate` does on a store: a known code is returned unchanged, a fresh code gets the invented record, and every other private record is kept; after a fallback the published map is untouched, after a load it is the private map |
| RenderGate.Fire | js/app.js:43-55 | each listener sets its own flag and keeps the other |
| RenderGate.Handle | js/app.js:27-33 | an event renders exactly when, after it, both flags are set |
| RenderGate.Renders | js/app.js:43-55 | one render decision per event of a trace |
| RenderGate.RendersExactlyWhenBothSeen | js/app.js:27-55 | the event at position i renders iff both kinds of event occur among the first i+1 (or were already flagged) |
| RenderGate.EitherOrder | js/app.js:44-55 | from the initial gate, either order of the two events renders on the second event and not on the first |
| RenderGate.NoRenderBeforeBoth | js/app.js:27-33 | while one kind of event is still missing nothing is drawn |
| MapView.Describe | js/app.js:140-146 | the label is the highest-ranked one whose threshold (0.05 … 0.85) the score reaches, "Very Negative" otherwise |
| MapView.WordsDistinguishLabels | js/app.js:140-146 | the seven descriptions are pairwise different words, so the shown words determine the label |
| MapView.DescribeMonotone | js/app.js:140-146 | a higher score never gets a lower-ranked label |
| MapView.TextColorFor | js/app.js:151 | text is black iff the score exceeds 0.5, white otherwise |
| MapView.TextColorAgreesWithLabel | js/app.js:140-151 | black text implies at least "Slightly Positive"; "Positive" and up are black; 0.5 is "Slightly Positive" on white |
| MapView.DisplayedTotal | js/app.js:161 | shows totalMentions when non-zero, otherwise the sum of the three counts |
| MapView.DisplayedTotalOfConsistent | js/app.js:161 | for a record whose counts add up, the shown total is both the mention total and the count sum |
| MapView.ShowDepartmentInfo | js/app.js:125-177 | no record gives the no-data panel; otherwise the panel carries the score, the words of its label, its text colour, the record colour, the shown total, the three counts, and the raw score exactly when it is non-zero |
| MapView.Resolve | js/app.js:76-83 | a published record is used as is; an unpublished code with a generator gets the generator's record, which is now in the generator's private map; without a generator there is no record and nothing changes; published records are never changed |
| MapView.ResolveStable | js/app.js:76-104 | resolving the same department a second time returns the same record and changes nothing, after a load and after the fallback |
| MapView.FillFor | js/app.js:85-86 | grey exactly when there is no record, otherwise the record's colour |
| MapView.ResolvedFillIsValid | js/app.js:76-91 | on a well-painted repository every department is grey or filled with the valid colour of its record's score in [0,1], and the repository stays well painted |
| MapView.GreyOnlyWithoutRecord | js/app.js:78-86 | a department is grey iff it has no published record and no generator exists |
| Departments.ToMap | analysis.py:22-48 | the dict's keys are the keys of its items |
| Departments.Invert | analysis.py:52 | the inverse's keys are the values of the items |
| Departments.InvertFindsItem | analysis.py:52 | the inverse maps a name only to a code listed with that name |
| Departments.ToMapHasItem | analysis.py:22-48 | with distinct keys the dict keeps every item |
| Departments.InvertRoundTrip | analysis.py:52 | the inverse is keyed by the dict's values, and the dict maps the inverse's code for each name back to that name |
| Departments.InvertIsInverse | analysis.py:52 | with distinct names too, the inverse of each code's name is that code |
| Departments.InvertCodesAreKeys | analysis.py:52-59 | with distinct keys and names, the codes reached through the inverse (the codes of `dept_patterns`) are exactly the dict's codes |
| FileTally.Classify | analysis.py:131-136 | positive iff score > 0.1, negative iff score < -0.1, neutral iff in [-0.1, 0.1] |
| FileTally.TallyOfConsistent | analysis.py:126-136 | a tally of scores has buckets adding up to mentions and as many scores as mentions |
| FileTally.Record | analysis.py:126-136 | one more mention, the score appended, exactly the matching bucket incremented, conservation preserved |
| FileTally.RecordExtendsTallyOf | analysis.py:126-136 | recording a score extends the tally of a score list by that score |
| FileTally.FindDepartments | analysis.py:61-75 | empty for non-string or empty text; otherwise exactly the table's codes whose pattern matches; no code twice |
| FileTally.AnalyzeSentiment | analysis.py:77-86 | 0 for non-string or empty text, otherwise the text's polarity |
| FileTally.InitialResults | analysis.py:93-98 | every department starts with 0 mentions, no scores and all buckets 0 |
| FileTally.ProcessComment | analysis.py:108-136 | a non-string comment, or one naming no department, leaves every tally unchanged; otherwise exactly the departments it names record its score once each and the others are untouched |
| FileTally.ProcessComments | analysis.py:108-136 | the comment loop keeps every department's entry and never lowers a mention count |
| FileTally.ProcessCommentsTallies | analysis.py:107-136 | after the comment loop each department's tally is the tally of the scores of exactly the comments mentioning it |
| FileTally.ProcessFile | analysis.py:88-141 | every department of the table keeps an entry |
| FileTally.ProcessFileTallies | analysis.py:88-141 | a file's tally of a department is the tally of its mentioning comments, none if unreadable, and is consistent |
| FileTally.FileScoresInRange | analysis.py:77-86 | with a polarity bounded by [-1,1] every recorded score is in [-1,1] |
| Aggregate.Combine | analysis.py:168-173 | mentions, scores and every bucket are the sums of the two tallies; consistency is kept |
| Aggregate.CombineTallyOf | analysis.py:168-173 | combining the tallies of two score lists is the tally of their concatenation |
| Aggregate.MergeFile | analysis.py:168-173 | departments in the file are combined, others unchanged, same keys |
| Aggregate.MergeAll | analysis.py:165-173 | merging keeps the department set |
| Aggregate.MergeAllSums | analysis.py:157-173 | merged mentions and each merged bucket equal the sums of the per-file values; conservation survives the merge |
| Aggregate.ProcessAll | analysis.py:150-151 | one result per file, in order, each the `process_file` result of that file and keyed by every department |
| Aggregate.AnalyzeFiles | analysis.py:150-173 | the merged results keep every department |
| Aggregate.AnalyzeFilesTallies | analysis.py:150-173 | over all files, each department's merged tally is the tally of every mentioning comment's score, in file order |
| Aggregate.AvgSentiment | analysis.py:176-180 | 0 with no mentions, otherwise average × mentions = sum of scores |
| Aggregate.AvgSentimentBounds | analysis.py:176-180 | if every score lies in [lo,hi] (with 0 in it) so does the average |
| Aggregate.Summarize | analysis.py:157-181 | the entry carries the name, mentions, distribution and average, and conserved tallies give conserved entries |
| Aggregate.Analyze | analysis.py:143-185 | one entry per department; its mentions, buckets and average are those of the scores of all comments mentioning it; buckets add up to mentions |
| Aggregate.AnalyzeAveragesInRange | analysis.py:176-180 | with polarity in [-1,1] every written average is in [-1,1] |
| Aggregate.AnalyzeDepartments | analysis.py:157-163 | over the department table of `analysis.py` every department gets a conserved entry under its name |
| Aggregate.AnalysisOutput | analysis.py:142-185 | no analysis file exactly when there is no comment file (the zero-process pool raises); otherwise the entries of `Analyze` |
| Pipeline.AnalyzeAndLoad | js/sentiment-data.js:56-120 | with no comment file the map shows the sample; otherwise the loaded records are named after their departments, their counts, mention total and raw score are the analysis entry's, their scores are the min–max rescaling of the written averages, and the load fails exactly when all averages are equal, in particular when nothing is mentioned; every shown record's counts add up and its shown total is its mention count |

## Left out

- Fetching, async loading and JSON parsing are left out as I/O. A failed
  load is the `None` source.
- `console.log`, `toFixed`, the `(score*100).toFixed(1)` percentage and the
  `rgb(…)` string formatting are left out as presentation.
- The best/worst department logging loop (js/sentiment-data.js:95-110) is
  left out because it only logs.
- The event dispatch itself is left out. Each dispatch is one `Event` of the
  gate's trace.
- Leaflet map setup, tile layer, tooltips, click wiring, `fitBounds`, HTML
  templating and the loading indicator are left out as UI. `renderMap` and
  `hideLoadingIndicator` are the gate's render decision.
- `renderMap`'s check for malformed GeoJSON (js/app.js:66-70) is left out. It
  concerns the region data, which is not part of this model.
- js/shp-to-geojson.js and convert_shapefile.py are not part of this model.
  They are a fetch with a static fallback and a geopandas reprojection.
- Accent stripping (`normalize_text`), the department regexes and TextBlob
  polarity are foreign code, taken as the parameters `matches` and
  `polarity`.
- `multiprocessing.Pool` and `lru_cache` are left out. The pool's ordered
  `map` is a sequential fold, and caching does not change results.
- Aggregate.Analyze is total: given no comment file it returns a zero entry
  per department, whereas `main` raises at `Pool(processes=0)`
  (analysis.py:150) and writes nothing. That error path is modelled one level
  up, by `Aggregate.AnalysisOutput` returning None, which
  `Pipeline.AnalyzeAndLoad` hands to the loader as a missing file. A stale
  analysis file left by an earlier run is not modelled.
- pandas CSV reading, the JSON and CSV writers and the per-comment rows of
  `department_comments.csv` are left out as I/O. A file that cannot be read
  is `None`.
- An exception partway through a file is not modelled. Only whole-file read
  failure is.
- `Math.random` is left out. Its two values are parameters, and the range
  [0,1) is a hypothesis of `Repository.RandomRecordPlausible`.
- IEEE-754 behaviour is left out. Arithmetic is exact. NaN from the
  all-equal normalisation is the explicit `ZeroRange` failure. JavaScript
  falsiness is modelled only for the value 0, not for NaN or `undefined`.
- Departments.InvertRoundTrip and Departments.InvertIsInverse are stated for
  any dict whose items have distinct keys (and, for the second, distinct
  names). They are not proved for the 101-entry literal table itself, whose
  codes and names are pairwise distinct by inspection.
- FileTally.FindDepartments searches the codes of `departments` directly,
  while `analysis.py` searches the codes of `dept_patterns`, which it builds
  from `departments_reverse` (analysis.py:52-59). The two code sets agree when
  the names are distinct (`Departments.InvertCodesAreKeys`); that
  distinctness is not proved for the literal table, as above.

=== FILE: aggregate.dfy ===
/** Combining the per-file tallies and producing the analysis file's entries
    (`main` in `analysis.py`): field-wise sums of the tallies, then the
    average sentiment with its zero-mentions guard. The process pool only
    changes when the files are tallied, not the result, so files are folded
    in order. */
module Aggregate {
  import opened Common
  import opened FileTally
  import opened AnalysisFile
  import opened Departments

  /** Adding one file's tally for a department into the running total. */
  function Combine(acc: Tally, local: Tally): (t: Tally)
    ensures t.mentions == acc.mentions + local.mentions
    ensures t.scores == acc.scores + local.scores
    ensures t.positive == acc.positive + local.positive
    ensures t.neutral == acc.neutral + local.neutral
    ensures t.negative == acc.negative + local.negative
    ensures Consistent(acc) && Consistent(local) ==> Consistent(t)
  {
    Tally(acc.mentions + local.mentions, acc.scores + local.scores,
          acc.positive + local.positive, acc.neutral + local.neutral, acc.negative + local.negative)
  }

  lemma {:induction false} CountInAppend(xs: seq<real>, ys: seq<real>, b: Bucket)
    ensures CountIn(xs + ys, b) == CountIn(xs, b) + CountIn(ys, b)
    decreases |ys|
  {
    if |ys| == 0 {
      assert xs + ys == xs;
    } else {
      var ys' := ys[..|ys| - 1];
      assert (xs + ys)[..|xs + ys| - 1] == xs + ys';
      CountInAppend(xs, ys', b);
    }
  }

  /** Combining the tallies of two score lists tallies their concatenation. */
  lemma CombineTallyOf(xs: seq<real>, ys: seq<real>)
    ensures Combine(TallyOf(xs), TallyOf(ys)) == TallyOf(xs + ys)
  {
    CountInAppend(xs, ys, PositiveBucket);
    CountInAppend(xs, ys, NeutralBucket);
    CountInAppend(xs, ys, NegativeBucket);
  }

  /** Adding one file's results into the running results. `main` looks
      every department of the file up in the running results, so the file
      may only hold departments the results already have. */
  function MergeFile(acc: Results, local: Results): (r: Results)
    requires local.Keys <= acc.Keys
    ensures r.Keys == acc.Keys
    ensures forall code :: code in r && code in local ==> r[code] == Combine(acc[code], local[code])
    ensures forall code :: code in r && code !in local ==> r[code] == acc[code]
  {
    map code | code in acc :: if code in local then Combine(acc[code], local[code]) else acc[code]
  }

  /** The loop over all files' results, in order. */
  function MergeAll(acc: Results, files: seq<Results>): (r: Results)
    requires forall i :: 0 <= i < |files| ==> files[i].Keys <= acc.Keys
    ensures r.Keys == acc.Keys
  {
    if |files| == 0 then acc
    else MergeFile(MergeAll(acc, files[..|files| - 1]), files[|files| - 1])
  }

  /** The sum of one field over all files. */
  function SumMentions(files: seq<Results>, code: string): nat
  {
    if |files| == 0 then 0
    else
      var last := files[|files| - 1];
      SumMentions(files[..|files| - 1], code) + (if code in last then last[code].mentions else 0)
  }

  function SumBucket(files: seq<Results>, code: string, b: Bucket): nat
  {
    if |files| == 0 then 0
    else
      var last := files[|files| - 1];
      SumBucket(files[..|files| - 1], code, b) +
        (if code !in last then 0
         else match b
              case PositiveBucket => last[code].positive
              case NeutralBucket => last[code].neutral
              case NegativeBucket => last[code].negative)
  }

  /** The merged mention count and each merged bucket are the sums of the
      per-file values, and a department consistent in every file stays
      consistent. */
  lemma {:induction false} MergeAllSums(acc: Results, files: seq<Results>, code: string)
    requires forall i :: 0 <= i < |files| ==> files[i].Keys <= acc.Keys
    requires code in acc && acc[code] == TallyOf([])
    ensures MergeAll(acc, files)[code].mentions == SumMentions(files, code)
    ensures MergeAll(acc, files)[code].positive == SumBucket(files, code, PositiveBucket)
    ensures MergeAll(acc, files)[code].neutral == SumBucket(files, code, NeutralBucket)
    ensures MergeAll(acc, files)[code].negative == SumBucket(files, code, NegativeBucket)
    ensures (forall i :: 0 <= i < |files| && code in files[i] ==> Consistent(files[i][code]))
            ==> Consistent(MergeAll(acc, files)[code])
  {
    if |files| > 0 {
      var init := files[..|files| - 1];
      MergeAllSums(acc, init, code);
      if forall i :: 0 <= i < |files| && code in files[i] ==> Consistent(files[i][code]) {
        assert forall i :: 0 <= i < |init| && code in init[i] ==> Consistent(init[i][code]) by {
          forall i | 0 <= i < |init| && code in init[i]
            ensures Consistent(init[i][code])
          {
            assert init[i] == files[i];
          }
        }
      }
    }
  }

  /** The department's scores concatenated over the files, in file order. */
  function ConcatScores(codes: set<string>, matches: Matcher, polarity: string -> real,
                        files: seq<Option<seq<Cell>>>, code: string): seq<real>
  {
    if |files| == 0 then []
    else
      var last := files[|files| - 1];
      ConcatScores(codes, matches, polarity, files[..|files| - 1], code) +
        FileScores(codes, matches, polarity, last, code)
  }

  /** `pool.map(process_file, csv_files)`: every file tallied on its own. */
  function ProcessAll(codes: set<string>, matches: Matcher, polarity: string -> real,
                      files: seq<Option<seq<Cell>>>): (rs: seq<Results>)
    ensures |rs| == |files|
    ensures forall i :: 0 <= i < |rs| ==> rs[i] == ProcessFile(codes, matches, polarity, files[i])
    ensures forall i :: 0 <= i < |rs| ==> rs[i].Keys == codes
  {
    if |files| == 0 then []
    else ProcessAll(codes, matches, polarity, files[..|files| - 1])
           + [ProcessFile(codes, matches, polarity, files[|files| - 1])]
  }

  /** Tally every file, then merge the per-file results in order. */
  function AnalyzeFiles(codes: set<string>, matches: Matcher, polarity: string -> real,
                        files: seq<Option<seq<Cell>>>): (r: Results)
    ensures r.Keys == codes
  {
    MergeAll(InitialResults(codes), ProcessAll(codes, matches, polarity, files))
  }

  /** Over all files, each department's merged tally is the tally of the
      scores of every comment, in every readable file, that mentions it. */
  lemma {:induction false} AnalyzeFilesTallies(codes: set<string>, matches: Matcher,
                                               polarity: string -> real,
                                               files: seq<Option<seq<Cell>>>, code: string)
    requires code in codes
    ensures AnalyzeFiles(codes, matches, polarity, files)[code]
            == TallyOf(ConcatScores(codes, matches, polarity, files, code))
  {
    if |files| > 0 {
      var init := files[..|files| - 1];
      var last := files[|files| - 1];
      var all := ProcessAll(codes, matches, polarity, files);
      var local := ProcessFile(codes, matches, polarity, last);
      assert all[..|files| - 1] == ProcessAll(codes, matches, polarity, init);
      assert all[|files| - 1] == local;
      var before := AnalyzeFiles(codes, matches, polarity, init);
      assert AnalyzeFiles(codes, matches, polarity, files) == MergeFile(before, local);
      AnalyzeFilesTallies(codes, matches, polarity, init, code);
      var xs := ConcatScores(codes, matches, polarity, init, code);
      var ys := FileScores(codes, matches, polarity, last, code);
      ProcessFileTallies(codes, matches, polarity, last, code);
      CombineTallyOf(xs, ys);
    }
  }

  /** `avg_sentiment`: the mean score, and 0 for a department never
      mentioned. */
  function AvgSentiment(t: Tally): (avg: real)
    ensures t.mentions == 0 ==> avg == 0.0
    ensures t.mentions > 0 ==> avg * t.mentions as real == Sum(t.scores)
  {
    if t.mentions > 0 then Sum(t.scores) / t.mentions as real else 0.0
  }

  /** When every score lies in [lo, hi] (TextBlob's polarity lies in
      [-1, 1]) the average does too. */
  lemma AvgSentimentBounds(t: Tally, lo: real, hi: real)
    requires Consistent(t)
    requires lo <= 0.0 <= hi
    requires forall i :: 0 <= i < |t.scores| ==> lo <= t.scores[i] <= hi
    ensures lo <= AvgSentiment(t) <= hi
  {
    if t.mentions > 0 {
      SumBounds(t.scores, lo, hi);
      var n := t.mentions as real;
      var avg := AvgSentiment(t);
      assert avg * n == Sum(t.scores);
      assert n * lo <= avg * n <= n * hi;
    }
  }

  /** The output entry of one department. */
  function Summarize(name: string, t: Tally): (e: DeptEntry)
    ensures e.name == name && e.mentions == t.mentions
    ensures e.distribution == Distribution(t.positive, t.neutral, t.negative)
    ensures e.avgSentiment == AvgSentiment(t)
    ensures Consistent(t) ==> Conserved(e)
  {
    DeptEntry(name, t.mentions, Distribution(t.positive, t.neutral, t.negative), AvgSentiment(t))
  }

  /** `main`: every department of the table gets an entry, whose counts are
      those of the comments mentioning it and whose buckets add up to its
      mentions. */
  function Analyze(departments: map<string, string>, matches: Matcher, polarity: string -> real,
                   files: seq<Option<seq<Cell>>>): (out: map<string, DeptEntry>)
    ensures out.Keys == departments.Keys
    ensures forall code :: code in out ==> out[code].name == departments[code] && Conserved(out[code])
    ensures forall code :: code in out ==>
      var xs := ConcatScores(departments.Keys, matches, polarity, files, code);
      && out[code].mentions == |xs|
      && out[code].distribution.positive == CountIn(xs, PositiveBucket)
      && out[code].distribution.neutral == CountIn(xs, NeutralBucket)
      && out[code].distribution.negative == CountIn(xs, NegativeBucket)
      && out[code].avgSentiment == (if |xs| > 0 then Sum(xs) / |xs| as real else 0.0)
  {
    var results := AnalyzeFiles(departments.Keys, matches, polarity, files);
    var out := map code | code in departments :: Summarize(departments[code], results[code]);
    forall code | code in out
      ensures Conserved(out[code])
      ensures results[code] == TallyOf(ConcatScores(departments.Keys, matches, polarity, files, code))
    {
      AnalyzeFilesTallies(departments.Keys, matches, polarity, files, code);
      TallyOfConsistent(ConcatScores(departments.Keys, matches, polarity, files, code));
    }
    out
  }

  /** `main` as a whole. With no comment file it asks for a pool of zero
      processes, which raises before anything is written, so there is no
      analysis file (None); otherwise the file holds the entries of
      `Analyze`. */
  function AnalysisOutput(departments: map<string, string>, matches: Matcher, polarity: string -> real,
                          files: seq<Option<seq<Cell>>>): (out: Option<map<string, DeptEntry>>)
    ensures out.None? <==> |files| == 0
    ensures out.Some? ==> out.value == Analyze(departments, matches, polarity, files)
  {
    if |files| == 0 then None else Some(Analyze(departments, matches, polarity, files))
  }

  lemma {:induction false} ConcatScoresInRange(codes: set<string>, matches: Matcher, polarity: string -> real,
                                               files: seq<Option<seq<Cell>>>, code: string)
    requires forall text :: -1.0 <= polarity(text) <= 1.0
    ensures forall x :: x in ConcatScores(codes, matches, polarity, files, code) ==> -1.0 <= x <= 1.0
  {
    if |files| > 0 {
      ConcatScoresInRange(codes, matches, polarity, files[..|files| - 1], code);
      var last := files[|files| - 1];
      if last.Some? {
        FileScoresInRange(codes, matches, polarity, last.value, code);
      }
    }
  }

  /** With TextBlob's polarity range [-1, 1], every average written to the
      analysis file lies in [-1, 1]. */
  lemma AnalyzeAveragesInRange(departments: map<string, string>, matches: Matcher,
                               polarity: string -> real, files: seq<Option<seq<Cell>>>, code: string)
    requires forall text :: -1.0 <= polarity(text) <= 1.0
    requires code in departments
    ensures -1.0 <= Analyze(departments, matches, polarity, files)[code].avgSentiment <= 1.0
  {
    var out := Analyze(departments, matches, polarity, files);
    var xs := ConcatScores(departments.Keys, matches, polarity, files, code);
    ConcatScoresInRange(departments.Keys, matches, polarity, files, code);
    assert forall i :: 0 <= i < |xs| ==> -1.0 <= xs[i] <= 1.0 by {
      forall i | 0 <= i < |xs|
        ensures -1.0 <= xs[i] <= 1.0
      {
        assert xs[i] in xs;
      }
    }
    TallyOfConsistent(xs);
    AvgSentimentBounds(TallyOf(xs), -1.0, 1.0);
    assert out[code].avgSentiment == AvgSentiment(TallyOf(xs));
  }

  /** `Analyze` over the department table of `analysis.py`. */
  function AnalyzeDepartments(matches: Matcher, polarity: string -> real,
                              files: seq<Option<seq<Cell>>>): (out: map<string, DeptEntry>)
    ensures out.Keys == ToMap(DepartmentItems).Keys
    ensures forall code :: code in out ==> out[code].name == ToMap(DepartmentItems)[code] && Conserved(out[code])
  {
    Analyze(ToMap(DepartmentItems), matches, polarity, files)
  }
}

=== FILE: analysis_file.dfy ===
/** One department's entry in `department_sentiment_analysis.json`: the file
    the Python analysis writes and the map's loader reads. */
module AnalysisFile {

  datatype Distribution = Distribution(positive: int, neutral: int, negative: int)

  datatype DeptEntry = DeptEntry(
    name: string,
    mentions: int,
    distribution: Distribution,
    avgSentiment: real)

  /** Every mention fell in exactly one bucket. */
  predicate Conserved(e: DeptEntry)
  {
    e.distribution.positive + e.distribution.neutral + e.distribution.negative == e.mentions
  }
}

=== FILE: color_scale.dfy ===
/** The red → yellow → green colour gradient that paints every department
    from its normalised sentiment score (`getColorFromScale`). */
module ColorScale {
  import opened Common

  /** An `rgb(r, g, b)` colour; `getColorFromScale` renders it as that CSS string. */
  datatype Rgb = Rgb(r: int, g: int, b: int)

  const Red := Rgb(255, 0, 0)
  const Yellow := Rgb(255, 255, 0)
  const Green := Rgb(0, 255, 0)

  /** Every channel is a valid 8-bit intensity. */
  predicate ValidRgb(c: Rgb)
  {
    0 <= c.r <= 255 && 0 <= c.g <= 255 && 0 <= c.b <= 255
  }

  /** The unrounded intensity of the channel that varies: green rises from
      0 to 255 over [0, 0.5), red falls from 255 to 0 over [0.5, 1]. */
  function Ramp(score: real): real
  {
    if score < 0.5 then 255.0 * (score / 0.5)
    else 255.0 * (1.0 - (score - 0.5) / 0.5)
  }

  /** The colour of a score. No clamping: out-of-range scores give
      out-of-range channels, exactly as in `getColorFromScale`. */
  function ColorFor(score: real): (c: Rgb)
    ensures c.b == 0
    ensures score < 0.5 ==> c.r == 255
    ensures score >= 0.5 ==> c.g == 255
    // the varying channel is the exact gradient value to within half a unit
    ensures score < 0.5 ==> Ramp(score) - 0.5 < c.g as real <= Ramp(score) + 0.5
    ensures score >= 0.5 ==> Ramp(score) - 0.5 < c.r as real <= Ramp(score) + 0.5
  {
    if score < 0.5 then
      Rgb(255, Round(255.0 * (score / 0.5)), 0)
    else
      Rgb(Round(255.0 * (1.0 - (score - 0.5) / 0.5)), 255, 0)
  }

  /** The three anchor colours of the gradient. */
  lemma Endpoints()
    ensures ColorFor(0.0) == Red
    ensures ColorFor(0.5) == Yellow
    ensures ColorFor(1.0) == Green
  {
    assert Round(0.0) == 0;
    assert Round(255.0) == 255;
  }

  /** In-range scores give valid colours. */
  lemma {:induction false} ChannelsInRange(score: real)
    requires 0.0 <= score <= 1.0
    ensures ValidRgb(ColorFor(score))
  {
    if score < 0.5 {
      RoundBetween(255.0 * (score / 0.5), 0, 255);
    } else {
      RoundBetween(255.0 * (1.0 - (score - 0.5) / 0.5), 0, 255);
    }
  }

  /** Along [0, 1] the green channel never falls and the red channel never
      rises: a better score is never painted redder. */
  lemma {:induction false} Monotone(s1: real, s2: real)
    requires 0.0 <= s1 <= s2 <= 1.0
    ensures ColorFor(s1).g <= ColorFor(s2).g
    ensures ColorFor(s1).r >= ColorFor(s2).r
  {
    ChannelsInRange(s1);
    ChannelsInRange(s2);
    if s2 < 0.5 {
      RoundMonotone(255.0 * (s1 / 0.5), 255.0 * (s2 / 0.5));
    } else if s1 >= 0.5 {
      RoundMonotone(255.0 * (1.0 - (s2 - 0.5) / 0.5), 255.0 * (1.0 - (s1 - 0.5) / 0.5));
    }
  }

  /** The two segments meet at yellow: every score within a small
      neighbourhood of 0.5, on either side, is painted exactly yellow. */
  lemma {:induction false} ContinuousAtMidpoint(score: real)
    requires 0.4991 <= score <= 0.5009
    ensures ColorFor(score) == Yellow
  {
  }
}

=== FILE: common.dfy ===
/** Small shared vocabulary: optional values, results with an error, the
    rounding JavaScript's `Math.round` performs, and sums of real sequences. */
module Common {

  datatype Option<+T> = None | Some(value: T)

  datatype Result<+R, +E> = Success(value: R) | Failure(error: E)

  /** `Math.round`: nearest integer, halves rounded towards +infinity. */
  function Round(x: real): (n: int)
    ensures x - 0.5 < n as real <= x + 0.5
  {
    (x + 0.5).Floor
  }

  /** Rounding is monotone. */
  lemma RoundMonotone(x: real, y: real)
    requires x <= y
    ensures Round(x) <= Round(y)
  {
  }

  /** Rounding a value that lies between two integers lands between them. */
  lemma RoundBetween(x: real, lo: int, hi: int)
    requires lo as real <= x <= hi as real
    ensures lo <= Round(x) <= hi
  {
  }

  /** Python's `sum(list)` on a list of floats, in exact arithmetic. */
  function Sum(xs: seq<real>): real
  {
    if |xs| == 0 then 0.0 else Sum(xs[..|xs| - 1]) + xs[|xs| - 1]
  }

  /** Summing a concatenation sums the two parts: the order in which the
      files' scores were gathered does not matter to the total. */
  lemma {:induction false} SumAppend(xs: seq<real>, ys: seq<real>)
    ensures Sum(xs + ys) == Sum(xs) + Sum(ys)
    decreases |ys|
  {
    if |ys| > 0 {
      var ys' := ys[..|ys| - 1];
      assert (xs + ys)[..|xs + ys| - 1] == xs + ys';
      assert (xs + ys)[|xs + ys| - 1] == ys[|ys| - 1];
      assert Sum(xs + ys) == Sum(xs + ys') + ys[|ys| - 1];
      SumAppend(xs, ys');
    } else {
      assert xs + ys == xs;
    }
  }

  /** Every element in [lo, hi] bounds the sum by |xs|·lo and |xs|·hi. */
  lemma {:induction false} SumBounds(xs: seq<real>, lo: real, hi: real)
    requires forall i :: 0 <= i < |xs| ==> lo <= xs[i] <= hi
    ensures |xs| as real * lo <= Sum(xs) <= |xs| as real * hi
  {
    if |xs| > 0 {
      var xs' := xs[..|xs| - 1];
      SumBounds(xs', lo, hi);
      assert |xs| as real * lo == |xs'| as real * lo + lo;
      assert |xs| as real * hi == |xs'| as real * hi + hi;
    }
  }
}

=== FILE: departments.dfy ===
/** The department table of `analysis.py` and its inversion from name to
    code (`departments` and `departments_reverse`). A Python dict is modelled
    by its items in insertion order; a dict never holds a key twice. */
module Departments {

  type Items = seq<(string, string)>

  /** The 101 departments, code to name, in the order `analysis.py` lists them. */
  const DepartmentItems: Items := [
      ("01", "Ain"), ("02", "Aisne"), ("03", "Allier"), ("04", "Alpes-de-Haute-Provence"),
      ("05", "Hautes-Alpes"), ("06", "Alpes-Maritimes"), ("07", "Ardèche"), ("08", "Ardennes"),
      ("09", "Ariège"), ("10", "Aube"), ("11", "Aude"), ("12", "Aveyron"),
      ("13", "Bouches-du-Rhône"), ("14", "Calvados"), ("15", "Cantal"), ("16", "Charente"),
      ("17", "Charente-Maritime"), ("18", "Cher"), ("19", "Corrèze"), ("21", "Côte-d'Or"),
      ("22", "Côtes-d'Armor"), ("23", "Creuse"), ("24", "Dordogne"), ("25", "Doubs"),
      ("26", "Drôme"), ("27", "Eure"), ("28", "Eure-et-Loir"), ("29", "Finistère"),
      ("2A", "Corse-du-Sud"), ("2B", "Haute-Corse"), ("30", "Gard"), ("31", "Haute-Garonne"),
      ("32", "Gers"), ("33", "Gironde"), ("34", "Hérault"), ("35", "Ille-et-Vilaine"),
      ("36", "Indre"), ("37", "Indre-et-Loire"), ("38", "Isère"), ("39", "Jura"),
      ("40", "Landes"), ("41", "Loir-et-Cher"), ("42", "Loire"), ("43", "Haute-Loire"),
      ("44", "Loire-Atlantique"), ("45", "Loiret"), ("46", "Lot"), ("47", "Lot-et-Garonne"),
      ("48", "Lozère"), ("49", "Maine-et-Loire"), ("50", "Manche"), ("51", "Marne"),
      ("52", "Haute-Marne"), ("53", "Mayenne"), ("54", "Meurthe-et-Moselle"), ("55", "Meuse"),
      ("56", "Morbihan"), ("57", "Moselle"), ("58", "Nièvre"), ("59", "Nord"),
      ("60", "Oise"), ("61", "Orne"), ("62", "Pas-de-Calais"), ("63", "Puy-de-Dôme"),
      ("64", "Pyrénées-Atlantiques"), ("65", "Hautes-Pyrénées"), ("66", "Pyrénées-Orientales"), ("67", "Bas-Rhin"),
      ("68", "Haut-Rhin"), ("69", "Rhône"), ("70", "Haute-Saône"), ("71", "Saône-et-Loire"),
      ("72", "Sarthe"), ("73", "Savoie"), ("74", "Haute-Savoie"), ("75", "Paris"),
      ("76", "Seine-Maritime"), ("77", "Seine-et-Marne"), ("78", "Yvelines"), ("79", "Deux-Sèvres"),
      ("80", "Somme"), ("81", "Tarn"), ("82", "Tarn-et-Garonne"), ("83", "Var"),
      ("84", "Vaucluse"), ("85", "Vendée"), ("86", "Vienne"), ("87", "Haute-Vienne"),
      ("88", "Vosges"), ("89", "Yonne"), ("90", "Territoire de Belfort"), ("91", "Essonne"),
      ("92", "Hauts-de-Seine"), ("93", "Seine-Saint-Denis"), ("94", "Val-de-Marne"), ("95", "Val-d'Oise"),
      ("971", "Guadeloupe"), ("972", "Martinique"), ("973", "Guyane"), ("974", "La Réunion"),
      ("976", "Mayotte")
  ]

  /** No key occurs twice: what every Python dict guarantees. */
  predicate DistinctKeys(items: Items)
  {
    forall i, j :: 0 <= i < j < |items| ==> items[i].0 != items[j].0
  }

  predicate DistinctValues(items: Items)
  {
    forall i, j :: 0 <= i < j < |items| ==> items[i].1 != items[j].1
  }

  /** The dict the items describe: a later item overrides an earlier one. */
  function ToMap(items: Items): (m: map<string, string>)
    ensures m.Keys == set i | 0 <= i < |items| :: items[i].0
  {
    if |items| == 0 then map[]
    else
      var last := items[|items| - 1];
      ToMap(items[..|items| - 1])[last.0 := last.1]
  }

  /** `{v: k for k, v in d.items()}`: each value maps to the key of its last
      occurrence. */
  function Invert(items: Items): (inv: map<string, string>)
    ensures inv.Keys == set i | 0 <= i < |items| :: items[i].1
  {
    if |items| == 0 then map[]
    else
      var last := items[|items| - 1];
      Invert(items[..|items| - 1])[last.1 := last.0]
  }

  /** The inverse only ever maps a name to a key that carries that name. */
  lemma {:induction false} InvertFindsItem(items: Items, name: string)
    requires name in Invert(items)
    ensures exists i :: 0 <= i < |items| && items[i] == (Invert(items)[name], name)
  {
    if |items| > 0 {
      var init := items[..|items| - 1];
      if name != items[|items| - 1].1 {
        InvertFindsItem(init, name);
        var i :| 0 <= i < |init| && init[i] == (Invert(init)[name], name);
        assert items[i] == init[i];
      }
    }
  }

  /** In a dict every item is the one the dict keeps for its key. */
  lemma {:induction false} ToMapHasItem(items: Items, i: nat)
    requires DistinctKeys(items)
    requires i < |items|
    ensures ToMap(items)[items[i].0] == items[i].1
  {
    var init := items[..|items| - 1];
    if i < |items| - 1 {
      assert DistinctKeys(init);
      ToMapHasItem(init, i);
      assert items[i].0 != items[|items| - 1].0;
    }
  }

  /** Looking a name up in the inverse and then the code up in the dict
      gives the name back. */
  lemma InvertRoundTrip(items: Items)
    requires DistinctKeys(items)
    ensures Invert(items).Keys == ToMap(items).Values
    ensures forall name :: name in Invert(items) ==>
      Invert(items)[name] in ToMap(items) && ToMap(items)[Invert(items)[name]] == name
  {
    forall name | name in Invert(items)
      ensures Invert(items)[name] in ToMap(items) && ToMap(items)[Invert(items)[name]] == name
    {
      InvertFindsItem(items, name);
      var i :| 0 <= i < |items| && items[i] == (Invert(items)[name], name);
      ToMapHasItem(items, i);
    }
    forall name | name in ToMap(items).Values
      ensures name in Invert(items)
    {
      var code :| code in ToMap(items) && ToMap(items)[code] == name;
      var i :| 0 <= i < |items| && items[i].0 == code;
      ToMapHasItem(items, i);
    }
  }

  /** When the names are distinct too, the inverse is a true inverse: every
      code comes back from the inverse of its own name. */
  lemma InvertIsInverse(items: Items, code: string)
    requires DistinctKeys(items) && DistinctValues(items)
    requires code in ToMap(items)
    ensures ToMap(items)[code] in Invert(items) && Invert(items)[ToMap(items)[code]] == code
  {
    var i :| 0 <= i < |items| && items[i].0 == code;
    ToMapHasItem(items, i);
    var name := items[i].1;
    InvertFindsItem(items, name);
    var j :| 0 <= j < |items| && items[j] == (Invert(items)[name], name);
    assert i == j;
  }

  /** The codes reachable through the inverse, which `analysis.py` turns
      into its per-department patterns, are exactly the codes of the dict
      when the names are distinct. */
  lemma InvertCodesAreKeys(items: Items)
    requires DistinctKeys(items) && DistinctValues(items)
    ensures Invert(items).Values == ToMap(items).Keys
  {
    forall code | code in Invert(items).Values
      ensures code in ToMap(items)
    {
      var name :| name in Invert(items) && Invert(items)[name] == code;
      InvertFindsItem(items, name);
    }
    forall code | code in ToMap(items)
      ensures code in Invert(items).Values
    {
      InvertIsInverse(items, code);
    }
  }
}

=== FILE: map_view.dfy ===
/** The decisions `js/app.js` makes when painting a department and filling
    its detail panel: which record it uses, the fill colour, the sentiment
    label, the text colour and the mention total it shows. */
module MapView {
  import opened Common
  import opened ColorScale
  import opened Normalization
  import opened Repository

  /** The seven labels of the detail panel, from worst to best. */
  datatype Label =
    | VeryNegative
    | Negative
    | SlightlyNegative
    | Neutral
    | SlightlyPositive
    | Positive
    | VeryPositive

  function Rank(l: Label): nat
  {
    match l
    case VeryNegative => 0
    case Negative => 1
    case SlightlyNegative => 2
    case Neutral => 3
    case SlightlyPositive => 4
    case Positive => 5
    case VeryPositive => 6
  }

  /** The least score that earns at least this label. */
  function Threshold(l: Label): real
    requires l != VeryNegative
  {
    match l
    case Negative => 0.05
    case SlightlyNegative => 0.15
    case Neutral => 0.35
    case SlightlyPositive => 0.45
    case Positive => 0.65
    case VeryPositive => 0.85
  }

  /** The words the panel shows for a label. */
  function Words(l: Label): string
  {
    match l
    case VeryNegative => "Very Negative"
    case Negative => "Negative"
    case SlightlyNegative => "Slightly Negative"
    case Neutral => "Neutral"
    case SlightlyPositive => "Slightly Positive"
    case Positive => "Positive"
    case VeryPositive => "Very Positive"
  }

  /** Different labels are shown with different words, so the panel's text
      determines the label. */
  lemma WordsDistinguishLabels(l: Label, m: Label)
    ensures Words(l) == Words(m) <==> l == m
  {
  }

  /** The sentiment description: the label is the best one whose threshold
      the score reaches, and "Very Negative" when it reaches none. */
  function Describe(score: real): (l: Label)
    ensures forall m: Label :: m != VeryNegative ==> (Rank(l) >= Rank(m) <==> score >= Threshold(m))
  {
    if score >= 0.85 then VeryPositive
    else if score >= 0.65 then Positive
    else if score >= 0.45 then SlightlyPositive
    else if score >= 0.35 then Neutral
    else if score >= 0.15 then SlightlyNegative
    else if score >= 0.05 then Negative
    else VeryNegative
  }

  /** A higher score never gets a lower-ranked label. */
  lemma DescribeMonotone(s1: real, s2: real)
    requires s1 <= s2
    ensures Rank(Describe(s1)) <= Rank(Describe(s2))
  {
    var l1 := Describe(s1);
    if l1 != VeryNegative {
      assert s2 >= Threshold(l1);
    }
  }

  datatype TextColor = Black | White

  /** Dark text on the lighter, greener half of the scale. */
  function TextColorFor(score: real): (c: TextColor)
    ensures c == Black <==> score > 0.5
  {
    if score > 0.5 then Black else White
  }

  /** Black text goes with a label of at least "Slightly Positive", and
      every label from "Positive" up has black text; a score of exactly 0.5
      is "Slightly Positive" on white. */
  lemma TextColorAgreesWithLabel(score: real)
    ensures TextColorFor(score) == Black ==> Rank(Describe(score)) >= Rank(SlightlyPositive)
    ensures Rank(Describe(score)) >= Rank(Positive) ==> TextColorFor(score) == Black
    ensures score == 0.5 ==> Describe(score) == SlightlyPositive && TextColorFor(score) == White
  {
  }

  /** The mention total shown: `totalMentions`, or the sum of the three
      counts when that is zero. */
  function DisplayedTotal(rec: SentimentRecord): (n: int)
    ensures rec.totalMentions != 0 ==> n == rec.totalMentions
    ensures rec.totalMentions == 0 ==> n == rec.positiveCount + rec.negativeCount + rec.neutralCount
  {
    if rec.totalMentions != 0 then rec.totalMentions
    else rec.positiveCount + rec.negativeCount + rec.neutralCount
  }

  /** For a record whose counts add up to its total, both ways of showing
      the total agree. */
  lemma DisplayedTotalOfConsistent(rec: SentimentRecord)
    requires rec.positiveCount + rec.negativeCount + rec.neutralCount == rec.totalMentions
    ensures DisplayedTotal(rec) == rec.totalMentions
    ensures DisplayedTotal(rec) == rec.positiveCount + rec.negativeCount + rec.neutralCount
  {
  }

  /** The detail panel's content; the raw score is shown as "N/A" (None)
      when it is zero, since `showDepartmentInfo` tests it for truthiness. */
  datatype Panel =
    | NoData(code: string, name: string)
    | Details(code: string, name: string, description: string, text: TextColor, background: Rgb,
              score: real, rawShown: Option<real>, total: int,
              positive: int, negative: int, neutral: int)

  /** `showDepartmentInfo`. */
  function ShowDepartmentInfo(code: string, name: string, data: Option<SentimentRecord>): (p: Panel)
    ensures data.None? <==> p.NoData?
    ensures p.code == code && p.name == name
    ensures data.Some? ==>
      && p.description == Words(Describe(data.value.sentimentScore))
      && p.text == TextColorFor(data.value.sentimentScore)
      && p.background == data.value.color
      && p.score == data.value.sentimentScore
      && p.total == DisplayedTotal(data.value)
      && p.positive == data.value.positiveCount
      && p.negative == data.value.negativeCount
      && p.neutral == data.value.neutralCount
      && (p.rawShown.None? <==> data.value.rawSentimentScore == 0.0)
      && (p.rawShown.Some? ==> p.rawShown.value == data.value.rawSentimentScore)
  {
    match data
    case None => NoData(code, name)
    case Some(rec) =>
      var score := rec.sentimentScore;
      Details(code, name, Words(Describe(score)), TextColorFor(score), rec.color, score,
              if rec.rawSentimentScore != 0.0 then Some(rec.rawSentimentScore) else None,
              DisplayedTotal(rec), rec.positiveCount, rec.negativeCount, rec.neutralCount)
  }

  /** How a department's record is found at render time: the published
      record if there is one, else a generated one when the generator
      exists, else none. Returns the record and the repository after any
      insertion. */
  function Resolve(repo: Repo, generatorPresent: bool, code: string, name: string,
                   draw: real, mentionDraw: real): (res: (Option<SentimentRecord>, Repo))
    ensures code in repo.Published() ==> res == (Some(repo.Published()[code]), repo)
    ensures res.0.None? <==> code !in repo.Published() && !generatorPresent
    ensures res.0.None? ==> res.1 == repo
    ensures code !in repo.Published() && generatorPresent ==>
      var (rec, repo') := GenerateIn(repo, code, name, draw, mentionDraw);
      res == (Some(rec), repo') && code in res.1.Private() && res.1.Private()[code] == rec
    ensures res.1.Published().Keys >= repo.Published().Keys
    ensures forall k :: k in repo.Published() ==> res.1.Published()[k] == repo.Published()[k]
  {
    if code in repo.Published() then (Some(repo.Published()[code]), repo)
    else if generatorPresent then
      var (rec, repo') := GenerateIn(repo, code, name, draw, mentionDraw);
      (Some(rec), repo')
    else (None, repo)
  }

  /** Painting and then wiring the click handler both resolve a department;
      the second resolution, with any fresh draws, finds the very record
      the first one produced and changes nothing, after a successful load
      and after the fallback alike. */
  lemma ResolveStable(repo: Repo, generatorPresent: bool, code: string, name: string,
                      draw: real, mentionDraw: real, draw': real, mentionDraw': real)
    ensures var (rec, repo1) := Resolve(repo, generatorPresent, code, name, draw, mentionDraw);
            Resolve(repo1, generatorPresent, code, name, draw', mentionDraw') == (rec, repo1)
  {
  }

  /** The fill of a department on the map. */
  datatype Fill = Paint(color: Rgb) | NoDataGrey

  /** The `style` callback's fill choice. */
  function FillFor(data: Option<SentimentRecord>): (f: Fill)
    ensures f == NoDataGrey <==> data.None?
    ensures data.Some? ==> f == Paint(data.value.color)
  {
    match data
    case Some(rec) => Paint(rec.color)
    case None => NoDataGrey
  }

  /** A department is grey only when it has no published record and there
      is no generator to invent one. */
  lemma GreyOnlyWithoutRecord(repo: Repo, generatorPresent: bool, code: string, name: string,
                              draw: real, mentionDraw: real)
    ensures FillFor(Resolve(repo, generatorPresent, code, name, draw, mentionDraw).0) == NoDataGrey
            <==> code !in repo.Published() && !generatorPresent
  {
  }

  /** On a well-painted repository, with a score draw in [0, 1), every
      department is either grey or painted with a valid colour that is the
      colour of its record's score, and the repository stays well painted. */
  lemma {:induction false} ResolvedFillIsValid(repo: Repo, generatorPresent: bool, code: string, name: string,
                                               draw: real, mentionDraw: real)
    requires RepoWellPainted(repo)
    requires 0.0 <= draw < 1.0
    ensures var (data, repo') := Resolve(repo, generatorPresent, code, name, draw, mentionDraw);
      && RepoWellPainted(repo')
      && (data.Some? ==> 0.0 <= data.value.sentimentScore <= 1.0
                         && FillFor(data) == Paint(ColorFor(data.value.sentimentScore))
                         && ValidRgb(ColorFor(data.value.sentimentScore)))
  {
    var (data, repo') := Resolve(repo, generatorPresent, code, name, draw, mentionDraw);
    if code !in repo.Published() && generatorPresent {
      GenerateKeepsWellPainted(repo, code, name, draw, mentionDraw);
      assert repo'.Private()[code] == data.value;
    }
    if data.Some? {
      ChannelsInRange(data.value.sentimentScore);
    }
  }
}

=== FILE: normalization.dfy ===
/** Min–max rescaling of every department's raw average sentiment to [0, 1]
    across the whole keyed set, with the colour of the rescaled score
    attached (`normalizeScores`). */
module Normalization {
  import opened Common
  import opened ColorScale

  /** A department as the loader builds it before normalisation. */
  datatype RawRecord = RawRecord(
    name: string,
    rawSentimentScore: real,
    positiveCount: int,
    negativeCount: int,
    neutralCount: int,
    totalMentions: int)

  /** A department as the map reads it: the raw fields plus the score the
      map colours by and that score's colour. */
  datatype SentimentRecord = SentimentRecord(
    name: string,
    sentimentScore: real,
    rawSentimentScore: real,
    positiveCount: int,
    negativeCount: int,
    neutralCount: int,
    totalMentions: int,
    color: Rgb)

  /** `normalizeScores` divides by `max - min`; when every raw score is equal
      that is a division by zero (NaN scores in the JavaScript loader). */
  datatype NormalizeError = ZeroRange

  type Data = map<string, RawRecord>

  ghost predicate IsMin(data: Data, lo: real)
  {
    && (exists k :: k in data && data[k].rawSentimentScore == lo)
    && (forall k :: k in data ==> lo <= data[k].rawSentimentScore)
  }

  ghost predicate IsMax(data: Data, hi: real)
  {
    && (exists k :: k in data && data[k].rawSentimentScore == hi)
    && (forall k :: k in data ==> data[k].rawSentimentScore <= hi)
  }

  /** All departments share one raw score. */
  ghost predicate AllEqual(data: Data)
  {
    forall k1, k2 :: k1 in data && k2 in data ==>
      data[k1].rawSentimentScore == data[k2].rawSentimentScore
  }

  /** The first loop of `normalizeScores`: the least and greatest raw score,
      or None for an empty set (where `normalizeScores` keeps ±Infinity and never
      uses them). */
  method ScoreBounds(data: Data) returns (b: Option<(real, real)>)
    ensures b.None? <==> data == map[]
    ensures b.Some? ==> IsMin(data, b.value.0) && IsMax(data, b.value.1)
  {
    var todo := data.Keys;
    var found := false;
    var lo, hi := 0.0, 0.0;
    while todo != {}
      invariant todo <= data.Keys
      invariant found <==> todo != data.Keys
      invariant found ==> lo <= hi
      invariant found ==> exists k :: k in data && k !in todo && data[k].rawSentimentScore == lo
      invariant found ==> exists k :: k in data && k !in todo && data[k].rawSentimentScore == hi
      invariant forall k :: k in data && k !in todo ==> lo <= data[k].rawSentimentScore <= hi
      decreases todo
    {
      var k :| k in todo;
      var score := data[k].rawSentimentScore;
      if !found || score < lo {
        lo := score;
      }
      if !found || score > hi {
        hi := score;
      }
      found := true;
      todo := todo - {k};
    }
    if found {
      b := Some((lo, hi));
    } else {
      b := None;
    }
  }

  /** Affine map of [lo, hi] onto [0, 1]. */
  function Rescale(x: real, lo: real, hi: real): real
    requires lo < hi
  {
    (x - lo) / (hi - lo)
  }

  /** Dividing by a positive number preserves order. */
  lemma DivideMonotone(a: real, b: real, d: real)
    requires d > 0.0 && a <= b
    ensures a / d <= b / d
  {
    assert b / d - a / d == (b - a) / d;
  }

  lemma RescaleFacts(x: real, y: real, lo: real, hi: real)
    requires lo < hi
    ensures lo <= x <= hi ==> 0.0 <= Rescale(x, lo, hi) <= 1.0
    ensures x <= y ==> Rescale(x, lo, hi) <= Rescale(y, lo, hi)
    ensures Rescale(lo, lo, hi) == 0.0 && Rescale(hi, lo, hi) == 1.0
  {
    var d := hi - lo;
    if lo <= x <= hi {
      DivideMonotone(0.0, x - lo, d);
      DivideMonotone(x - lo, d, d);
    }
    if x <= y {
      DivideMonotone(x - lo, y - lo, d);
    }
  }

  function NormalizeRecord(raw: RawRecord, lo: real, hi: real): (rec: SentimentRecord)
    requires lo < hi
  {
    var s := Rescale(raw.rawSentimentScore, lo, hi);
    SentimentRecord(raw.name, s, raw.rawSentimentScore, raw.positiveCount,
                    raw.negativeCount, raw.neutralCount, raw.totalMentions, ColorFor(s))
  }

  /** The record keeps every raw field; only the score and colour are new. */
  predicate Extends(rec: SentimentRecord, raw: RawRecord)
  {
    && rec.name == raw.name
    && rec.rawSentimentScore == raw.rawSentimentScore
    && rec.positiveCount == raw.positiveCount
    && rec.negativeCount == raw.negativeCount
    && rec.neutralCount == raw.neutralCount
    && rec.totalMentions == raw.totalMentions
  }

  /** The second loop of `normalizeScores`, given the bounds of the first. */
  function RescaleAll(data: Data, lo: real, hi: real): (out: map<string, SentimentRecord>)
    requires lo < hi
    requires IsMin(data, lo) && IsMax(data, hi)
    ensures out.Keys == data.Keys
    ensures forall k :: k in out ==> Extends(out[k], data[k])
    ensures forall k :: k in out ==> out[k].color == ColorFor(out[k].sentimentScore)
    ensures forall k :: k in out ==> 0.0 <= out[k].sentimentScore <= 1.0
    ensures forall k :: k in out && data[k].rawSentimentScore == lo ==> out[k].sentimentScore == 0.0
    ensures forall k :: k in out && data[k].rawSentimentScore == hi ==> out[k].sentimentScore == 1.0
    ensures forall k1, k2 :: k1 in out && k2 in out ==>
      data[k1].rawSentimentScore <= data[k2].rawSentimentScore ==>
      out[k1].sentimentScore <= out[k2].sentimentScore
  {
    var out := map k | k in data :: NormalizeRecord(data[k], lo, hi);
    forall k | k in out
      ensures 0.0 <= out[k].sentimentScore <= 1.0
    {
      RescaleFacts(data[k].rawSentimentScore, hi, lo, hi);
    }
    forall k1, k2 | k1 in out && k2 in out &&
      data[k1].rawSentimentScore <= data[k2].rawSentimentScore
      ensures out[k1].sentimentScore <= out[k2].sentimentScore
    {
      RescaleFacts(data[k1].rawSentimentScore, data[k2].rawSentimentScore, lo, hi);
    }
    RescaleFacts(lo, hi, lo, hi);
    out
  }

  /** The scores of `out` are the min–max rescaling of the raw scores of
      `data`: the least raw score becomes 0, the greatest 1, order is kept,
      and every score is the affine image `(raw - min) / (max - min)`. */
  ghost predicate MinMaxRescaled(data: Data, out: map<string, SentimentRecord>)
  {
    && out.Keys == data.Keys
    && (forall k :: k in data && IsMin(data, data[k].rawSentimentScore) ==> out[k].sentimentScore == 0.0)
    && (forall k :: k in data && IsMax(data, data[k].rawSentimentScore) ==> out[k].sentimentScore == 1.0)
    && (forall k1, k2 :: k1 in data && k2 in data ==>
          data[k1].rawSentimentScore <= data[k2].rawSentimentScore ==>
          out[k1].sentimentScore <= out[k2].sentimentScore)
    && (data != map[] ==> exists lo, hi ::
          && IsMin(data, lo) && IsMax(data, hi) && lo < hi
          && forall k :: k in data ==> out[k].sentimentScore == (data[k].rawSentimentScore - lo) / (hi - lo))
  }

  /** `normalizeScores`. An empty set normalises to an empty set; a set whose
      raw scores are all equal is reported as ZeroRange instead of the NaN
      scores `normalizeScores` would store. */
  method NormalizeScores(data: Data) returns (r: Result<map<string, SentimentRecord>, NormalizeError>)
    ensures data == map[] ==> r == Success(map[])
    ensures r.Failure? <==> data != map[] && AllEqual(data)
    ensures r.Success? ==> r.value.Keys == data.Keys
    ensures r.Success? ==> forall k :: k in data ==>
      && Extends(r.value[k], data[k])
      && r.value[k].color == ColorFor(r.value[k].sentimentScore)
      && 0.0 <= r.value[k].sentimentScore <= 1.0
    ensures r.Success? ==> MinMaxRescaled(data, r.value)
  {
    var b := ScoreBounds(data);
    match b
    case None =>
      r := Success(map[]);
    case Some((lo, hi)) =>
      if lo == hi {
        r := Failure(ZeroRange);
      } else {
        assert !AllEqual(data) by {
          var k1 :| k1 in data && data[k1].rawSentimentScore == lo;
          var k2 :| k2 in data && data[k2].rawSentimentScore == hi;
        }
        r := Success(RescaleAll(data, lo, hi));
      }
  }

  /** Three departments with raw scores -0.1, 0.046 and 0.2 normalise to 0,
      0.146 / 0.3 (about 0.487) and 1. */
  lemma ThreeDepartmentExample()
    ensures var data := map["A" := RawRecord("A", -0.1, 0, 0, 0, 0),
                             "B" := RawRecord("B", 0.046, 0, 0, 0, 0),
                             "C" := RawRecord("C", 0.2, 0, 0, 0, 0)];
            IsMin(data, -0.1) && IsMax(data, 0.2) &&
            var out := RescaleAll(data, -0.1, 0.2);
            out["A"].sentimentScore == 0.0 && out["C"].sentimentScore == 1.0 &&
            0.486 <= out["B"].sentimentScore <= 0.487
  {
    var data := map["A" := RawRecord("A", -0.1, 0, 0, 0, 0),
                    "B" := RawRecord("B", 0.046, 0, 0, 0, 0),
                    "C" := RawRecord("C", 0.2, 0, 0, 0, 0)];
    assert data["A"].rawSentimentScore == -0.1;
    assert data["C"].rawSentimentScore == 0.2;
  }
}

=== FILE: pipeline.dfy ===
/** The two halves joined: the entries `analysis.py` writes are the entries
    `js/sentiment-data.js` loads. */
module Pipeline {
  import opened Common
  import opened Normalization
  import opened AnalysisFile
  import opened Repository
  import opened MapView
  import opened FileTally
  import opened Aggregate

  /** All departments received the same average sentiment. */
  ghost predicate SameAverages(out: map<string, DeptEntry>)
  {
    forall c1, c2 :: c1 in out && c2 in out ==> out[c1].avgSentiment == out[c2].avgSentiment
  }

  /** Analyse the comment files, then load the result into the map. With no
      comment file there is no analysis file and the map shows the sample.
      Otherwise every loaded department's counts add up to its mentions, so
      the panel's total is the mention count either way; the load fails
      exactly when every department got the same average, which is what
      happens when no comment mentions any department. */
  method AnalyzeAndLoad(departments: map<string, string>, matches: Matcher,
                        polarity: string -> real, files: seq<Option<seq<Cell>>>)
    returns (r: Result<Repo, NormalizeError>)
    ensures |files| == 0 ==> r == Success(Fallback(SampleData, map[]))
    ensures |files| > 0 && r.Success? ==> r.value.Loaded? && r.value.data.Keys == departments.Keys
    ensures |files| > 0 && r.Success? ==> forall code :: code in r.value.data ==>
      r.value.data[code].name == departments[code]
    ensures |files| > 0 && r.Success? ==> forall code :: code in r.value.data ==>
      var e := Analyze(departments, matches, polarity, files)[code];
      var rec := r.value.data[code];
      && rec.totalMentions == e.mentions
      && rec.positiveCount == e.distribution.positive
      && rec.negativeCount == e.distribution.negative
      && rec.neutralCount == e.distribution.neutral
      && rec.rawSentimentScore == e.avgSentiment
    ensures r.Success? ==> forall code :: code in r.value.Published() ==>
      var rec := r.value.Published()[code];
      && rec.positiveCount + rec.negativeCount + rec.neutralCount == rec.totalMentions
      && DisplayedTotal(rec) == rec.totalMentions
    ensures |files| > 0 && r.Success? ==>
      MinMaxRescaled(BuildRawRecords(Analyze(departments, matches, polarity, files)), r.value.data)
    ensures r.Failure? <==>
      |files| > 0 && departments != map[] && SameAverages(Analyze(departments, matches, polarity, files))
    ensures |files| > 0 && departments != map[] &&
      (forall code :: code in departments ==> ConcatScores(departments.Keys, matches, polarity, files, code) == [])
      ==> r.Failure?
  {
    var output := AnalysisOutput(departments, matches, polarity, files);
    r := LoadSentimentData(output);
    if |files| > 0 {
      var raw := BuildRawRecords(output.value);
      assert AllEqual(raw) <==> SameAverages(output.value);
    } else {
      SampleRecordFacts();
    }
    if r.Success? {
      forall code | code in r.value.Published()
        ensures DisplayedTotal(r.value.Published()[code]) == r.value.Published()[code].totalMentions
      {
        DisplayedTotalOfConsistent(r.value.Published()[code]);
      }
    }
  }
}

=== FILE: render_gate.dfy ===
/** The two-flag barrier of `js/app.js`: the map is drawn only once both the
    region geometry and the sentiment data have announced themselves, in
    whichever order their events arrive. */
module RenderGate {

  datatype Event = GeoJsonLoaded | SentimentDataLoaded

  datatype Gate = Gate(geoJsonLoaded: bool, sentimentDataLoaded: bool)

  const Initial := Gate(false, false)

  /** `initApp`'s guard: whether it goes on to render. */
  predicate Ready(g: Gate)
  {
    g.geoJsonLoaded && g.sentimentDataLoaded
  }

  /** An event listener: set its own flag, leave the other one. */
  function Fire(g: Gate, e: Event): (g': Gate)
    ensures e == GeoJsonLoaded ==> g'.geoJsonLoaded && g'.sentimentDataLoaded == g.sentimentDataLoaded
    ensures e == SentimentDataLoaded ==> g'.sentimentDataLoaded && g'.geoJsonLoaded == g.geoJsonLoaded
  {
    match e
    case GeoJsonLoaded => g.(geoJsonLoaded := true)
    case SentimentDataLoaded => g.(sentimentDataLoaded := true)
  }

  /** A listener followed by `initApp`: the new gate and whether the map was
      rendered by this event. */
  function Handle(g: Gate, e: Event): (res: (Gate, bool))
    ensures res.0 == Fire(g, e)
    ensures res.1 <==> (e == GeoJsonLoaded || g.geoJsonLoaded) &&
                       (e == SentimentDataLoaded || g.sentimentDataLoaded)
  {
    var g' := Fire(g, e);
    (g', Ready(g'))
  }

  /** For each event of a trace, whether that event triggered a render. */
  function Renders(g: Gate, events: seq<Event>): (rs: seq<bool>)
    ensures |rs| == |events|
    decreases |events|
  {
    if |events| == 0 then []
    else
      var (g', rendered) := Handle(g, events[0]);
      [rendered] + Renders(g', events[1..])
  }

  /** The event at position i renders exactly when, counting everything up
      to and including it, both kinds of event have been seen. */
  lemma {:induction false} RendersExactlyWhenBothSeen(g: Gate, events: seq<Event>, i: nat)
    requires i < |events|
    ensures Renders(g, events)[i] <==>
      && (g.geoJsonLoaded || GeoJsonLoaded in events[..i + 1])
      && (g.sentimentDataLoaded || SentimentDataLoaded in events[..i + 1])
    decreases i
  {
    var g' := Fire(g, events[0]);
    if i > 0 {
      RendersExactlyWhenBothSeen(g', events[1..], i - 1);
      assert events[..i + 1] == [events[0]] + events[1..][..i];
    }
  }

  /** From the initial gate, with the two events in either order, nothing is
      drawn on the first event and the map is drawn on the second. */
  lemma EitherOrder(first: Event, second: Event)
    requires first != second
    ensures Renders(Initial, [first, second]) == [false, true]
  {
    RendersExactlyWhenBothSeen(Initial, [first, second], 0);
    RendersExactlyWhenBothSeen(Initial, [first, second], 1);
    assert [first, second][..1] == [first];
    assert [first, second][..2] == [first, second];
  }

  /** Before both kinds of event have arrived the map is never drawn. */
  lemma {:induction false} NoRenderBeforeBoth(events: seq<Event>, i: nat)
    requires i < |events|
    requires GeoJsonLoaded !in events[..i + 1] || SentimentDataLoaded !in events[..i + 1]
    ensures !Renders(Initial, events)[i]
  {
    RendersExactlyWhenBothSeen(Initial, events, i);
  }
}

=== FILE: repository.dfy ===
/** The keyed store of department sentiment records kept by
    `js/sentiment-data.js`: the loader that builds raw records from the
    analysis file and normalises them, the one-department fallback used when
    loading fails, and the on-demand generator for departments the file
    lacks (`generateRandomSentiment`). */
module Repository {
  import opened Common
  import opened ColorScale
  import opened Normalization
  import opened AnalysisFile

  type Store = map<string, SentimentRecord>

  /** After a successful load the published map (`window.sentimentData`) and
      the generator's private map are one and the same object. After the
      fallback the published map is the sample while the generator keeps
      writing to its own, initially empty, map. */
  datatype Repo =
    | Loaded(data: Store)
    | Fallback(sample: Store, store: Store)
  {
    /** The map the renderer reads. */
    function Published(): Store
    {
      match this
      case Loaded(data) => data
      case Fallback(sample, _) => sample
    }

    /** The map the generator consults and extends. */
    function Private(): Store
    {
      match this
      case Loaded(data) => data
      case Fallback(_, store) => store
    }
  }

  /** Every record has a score in [0, 1] painted with that score's colour. */
  predicate WellPainted(store: Store)
  {
    forall code :: code in store ==>
      0.0 <= store[code].sentimentScore <= 1.0 && store[code].color == ColorFor(store[code].sentimentScore)
  }

  /** Both maps of the repository are well painted. */
  predicate RepoWellPainted(repo: Repo)
  {
    WellPainted(repo.Published()) && WellPainted(repo.Private())
  }

  /** The loop that turns each analysis entry into a raw record. */
  function BuildRawRecords(entries: map<string, DeptEntry>): (data: Data)
    ensures data.Keys == entries.Keys
    ensures forall code :: code in data ==>
      var e := entries[code];
      var raw := data[code];
      && raw.name == e.name
      && raw.rawSentimentScore == e.avgSentiment
      && raw.positiveCount == e.distribution.positive
      && raw.negativeCount == e.distribution.negative
      && raw.neutralCount == e.distribution.neutral
      && raw.totalMentions == e.mentions
  {
    map code | code in entries ::
      var e := entries[code];
      RawRecord(e.name, e.avgSentiment, e.distribution.positive,
                e.distribution.negative, e.distribution.neutral, e.mentions)
  }

  /** The built-in record for Paris used when the file cannot be loaded. */
  const SampleRecord := SentimentRecord("Paris", 0.68, 0.046, 42357, 13694, 127048, 183099, ColorFor(0.68))
  const SampleData: Store := map["75" := SampleRecord]

  /** The fallback record is painted rgb(163, 255, 0) and its counts add up. */
  lemma SampleRecordFacts()
    ensures SampleRecord.color == Rgb(163, 255, 0)
    ensures SampleRecord.positiveCount + SampleRecord.negativeCount + SampleRecord.neutralCount
            == SampleRecord.totalMentions
  {
    assert 255.0 * (1.0 - (0.68 - 0.5) / 0.5) == 163.2;
  }

  /** `loadSentimentData`: `source` is None when the fetch or the JSON
      parsing fails. A readable file is normalised and published; the
      degenerate all-equal file is reported rather than stored as NaN. */
  method LoadSentimentData(source: Option<map<string, DeptEntry>>) returns (r: Result<Repo, NormalizeError>)
    ensures source.None? ==> r == Success(Fallback(SampleData, map[]))
    ensures r.Success? ==> RepoWellPainted(r.value)
    ensures source.Some? && r.Success? ==>
      && r.value.Loaded?
      && r.value.data.Keys == source.value.Keys
      && forall code :: code in source.value ==>
           var e := source.value[code];
           var rec := r.value.data[code];
           && rec.name == e.name
           && rec.rawSentimentScore == e.avgSentiment
           && rec.totalMentions == e.mentions
           && rec.positiveCount == e.distribution.positive
           && rec.negativeCount == e.distribution.negative
           && rec.neutralCount == e.distribution.neutral
           && 0.0 <= rec.sentimentScore <= 1.0
           && rec.color == ColorFor(rec.sentimentScore)
    ensures source.Some? && r.Success? ==> MinMaxRescaled(BuildRawRecords(source.value), r.value.data)
    ensures source.Some? ==>
      (r.Failure? <==> source.value != map[] && AllEqual(BuildRawRecords(source.value)))
  {
    match source
    case None =>
      r := Success(Fallback(SampleData, map[]));
    case Some(entries) =>
      var raw := BuildRawRecords(entries);
      var normalized := NormalizeScores(raw);
      match normalized
      case Success(m) =>
        assert MinMaxRescaled(raw, m);
        forall code | code in entries
          ensures Extends(m[code], raw[code]) && 0.0 <= m[code].sentimentScore <= 1.0
        {
        }
        assert WellPainted(m);
        r := Success(Loaded(m));
      case Failure(e) =>
        r := Failure(e);
  }

  /** The mention total the generator draws: `floor(d * 1000) + 500`. */
  function MentionTotal(mentionDraw: real): int
  {
    (mentionDraw * 1000.0).Floor + 500
  }

  /** The record the generator invents for score draw `draw` and mention
      draw `mentionDraw` (the two `Math.random()` values). The draw is
      stored directly as the displayed score, not normalised. */
  function RandomRecord(name: string, draw: real, mentionDraw: real): (rec: SentimentRecord)
    ensures rec.name == name
    ensures rec.sentimentScore == draw && rec.color == ColorFor(draw)
    ensures rec.rawSentimentScore == draw * 0.2 - 0.1
    ensures rec.totalMentions == MentionTotal(mentionDraw)
    ensures rec.positiveCount == (rec.totalMentions as real * (0.2 + draw * 0.3)).Floor
    ensures rec.negativeCount == (rec.totalMentions as real * (0.1 + (1.0 - draw) * 0.2)).Floor
    ensures rec.positiveCount + rec.negativeCount + rec.neutralCount == rec.totalMentions
  {
    var total := MentionTotal(mentionDraw);
    var positiveRatio := 0.2 + draw * 0.3;
    var negativeRatio := 0.1 + (1.0 - draw) * 0.2;
    var positive := (total as real * positiveRatio).Floor;
    var negative := (total as real * negativeRatio).Floor;
    SentimentRecord(name, draw, draw * 0.2 - 0.1, positive, negative,
                    total - positive - negative, total, ColorFor(draw))
  }

  /** With draws in [0, 1), as `Math.random` supplies them, the invented
      record is plausible: 500 to 1499 mentions, no negative count (the two
      ratios add up to 0.5 + 0.1·draw, at most 0.6), a raw score in
      [-0.1, 0.1) and a valid colour. */
  lemma {:induction false} RandomRecordPlausible(name: string, draw: real, mentionDraw: real)
    requires 0.0 <= draw < 1.0 && 0.0 <= mentionDraw < 1.0
    ensures var rec := RandomRecord(name, draw, mentionDraw);
      && 500 <= rec.totalMentions < 1500
      && rec.positiveCount >= 0 && rec.negativeCount >= 0 && rec.neutralCount >= 0
      && -0.1 <= rec.rawSentimentScore < 0.1
      && ValidRgb(rec.color)
  {
    var rec := RandomRecord(name, draw, mentionDraw);
    assert 0.0 <= mentionDraw * 1000.0 < 1000.0;
    assert 500 <= rec.totalMentions < 1500;
    FlooredSharesFit(rec.totalMentions, 0.2 + draw * 0.3, 0.1 + (1.0 - draw) * 0.2);
    ChannelsInRange(draw);
  }

  /** Flooring two shares of a total whose ratios add up to at most 1 leaves
      a non-negative remainder. */
  lemma FlooredSharesFit(total: int, pr: real, nr: real)
    requires total >= 0 && pr >= 0.0 && nr >= 0.0 && pr + nr <= 1.0
    ensures (total as real * pr).Floor >= 0 && (total as real * nr).Floor >= 0
    ensures (total as real * pr).Floor + (total as real * nr).Floor <= total
  {
    var t := total as real;
    ProductNonNegative(t, pr);
    ProductNonNegative(t, nr);
    ProductNonNegative(t, 1.0 - pr - nr);
    assert t * (1.0 - pr - nr) == t - t * pr - t * nr;
    var p, n := (t * pr).Floor, (t * nr).Floor;
    assert p as real <= t * pr && n as real <= t * nr;
  }

  lemma ProductNonNegative(a: real, b: real)
    requires a >= 0.0 && b >= 0.0
    ensures a * b >= 0.0
  {
  }

  /** `generateRandomSentiment` on one store: a department already present
      gets its stored record back and the store is untouched; otherwise the
      invented record is inserted under its code and returned. */
  function Generate(store: Store, code: string, name: string, draw: real, mentionDraw: real)
    : (res: (SentimentRecord, Store))
    ensures code in store ==> res == (store[code], store)
    ensures code !in store ==> res.0 == RandomRecord(name, draw, mentionDraw)
    ensures res.1.Keys == store.Keys + {code}
    ensures res.1[code] == res.0
    ensures forall k :: k in store && k != code ==> res.1[k] == store[k]
  {
    if code in store then (store[code], store)
    else
      var rec := RandomRecord(name, draw, mentionDraw);
      (rec, store[code := rec])
  }

  /** Asking again for the same department, with any name and any draws,
      returns the same record and changes nothing. */
  lemma GenerateIdempotent(store: Store, code: string, name: string, draw: real, mentionDraw: real,
                           name': string, draw': real, mentionDraw': real)
    ensures var (rec, store1) := Generate(store, code, name, draw, mentionDraw);
            Generate(store1, code, name', draw', mentionDraw') == (rec, store1)
  {
  }

  /** The generator acting on the repository: it writes its private map,
      which after a successful load is also the published one. */
  function GenerateIn(repo: Repo, code: string, name: string, draw: real, mentionDraw: real)
    : (res: (SentimentRecord, Repo))
    ensures res.1.Loaded? <==> repo.Loaded?
    ensures (res.0, res.1.Private()) == Generate(repo.Private(), code, name, draw, mentionDraw)
    ensures res.1.Private().Keys == repo.Private().Keys + {code}
    ensures res.1.Private()[code] == res.0
    ensures code in repo.Private() ==> res == (repo.Private()[code], repo)
    ensures repo.Fallback? ==> res.1.Published() == repo.Published()
    ensures repo.Loaded? ==> res.1.Published() == res.1.Private()
  {
    var (rec, store') := Generate(repo.Private(), code, name, draw, mentionDraw);
    match repo
    case Loaded(_) => (rec, Loaded(store'))
    case Fallback(sample, _) => (rec, Fallback(sample, store'))
  }

  /** With a score draw in [0, 1), as `Math.random` supplies it, generation
      keeps the repository well painted: every record the map can show has
      a score in [0, 1] and that score's colour, loaded or invented. */
  lemma {:induction false} GenerateKeepsWellPainted(repo: Repo, code: string, name: string,
                                                    draw: real, mentionDraw: real)
    requires RepoWellPainted(repo)
    requires 0.0 <= draw < 1.0
    ensures RepoWellPainted(GenerateIn(repo, code, name, draw, mentionDraw).1)
  {
    var (rec, repo') := GenerateIn(repo, code, name, draw, mentionDraw);
    if code !in repo.Private() {
      assert rec == RandomRecord(name, draw, mentionDraw);
    }
    assert WellPainted(repo'.Private());
  }
}

=== FILE: tally.dfy ===
/** Per-department tallying of one comments file (`process_file` in
    `analysis.py`). Department detection and polarity scoring are foreign
    code (regular expressions over accent-stripped text, TextBlob), so they
    enter as the parameters `matches` and `polarity`. */
module FileTally {
  import opened Common

  /** One department's running tally. */
  datatype Tally = Tally(mentions: nat, scores: seq<real>, positive: nat, neutral: nat, negative: nat)

  const Zero := Tally(0, [], 0, 0, 0)

  /** Every mention has one score and sits in exactly one bucket. */
  predicate Consistent(t: Tally)
  {
    t.positive + t.neutral + t.negative == t.mentions == |t.scores|
  }

  datatype Bucket = PositiveBucket | NeutralBucket | NegativeBucket

  /** The ±0.1 thresholds; the boundaries themselves are neutral. */
  function Classify(score: real): (b: Bucket)
    ensures b == PositiveBucket <==> score > 0.1
    ensures b == NegativeBucket <==> score < -0.1
    ensures b == NeutralBucket <==> -0.1 <= score <= 0.1
  {
    if score > 0.1 then PositiveBucket
    else if score < -0.1 then NegativeBucket
    else NeutralBucket
  }

  /** How many scores of `xs` fall in bucket `b`. */
  function CountIn(xs: seq<real>, b: Bucket): nat
  {
    if |xs| == 0 then 0
    else CountIn(xs[..|xs| - 1], b) + (if Classify(xs[|xs| - 1]) == b then 1 else 0)
  }

  /** The tally a department would have if `xs` were exactly the scores of
      the comments mentioning it, in order. */
  function TallyOf(xs: seq<real>): Tally
  {
    Tally(|xs|, xs, CountIn(xs, PositiveBucket), CountIn(xs, NeutralBucket), CountIn(xs, NegativeBucket))
  }

  lemma {:induction false} TallyOfConsistent(xs: seq<real>)
    ensures Consistent(TallyOf(xs))
  {
    if |xs| > 0 {
      TallyOfConsistent(xs[..|xs| - 1]);
    }
  }

  /** One mention with score `score`: one more mention, the score appended,
      and exactly the matching bucket incremented. */
  function Record(t: Tally, score: real): (t': Tally)
    ensures t'.mentions == t.mentions + 1
    ensures t'.scores == t.scores + [score]
    ensures t'.positive + t'.neutral + t'.negative == t.positive + t.neutral + t.negative + 1
    ensures t'.positive == t.positive + (if Classify(score) == PositiveBucket then 1 else 0)
    ensures t'.neutral == t.neutral + (if Classify(score) == NeutralBucket then 1 else 0)
    ensures t'.negative == t.negative + (if Classify(score) == NegativeBucket then 1 else 0)
    ensures Consistent(t) ==> Consistent(t')
  {
    var t1 := t.(mentions := t.mentions + 1, scores := t.scores + [score]);
    if score > 0.1 then t1.(positive := t.positive + 1)
    else if score < -0.1 then t1.(negative := t.negative + 1)
    else t1.(neutral := t.neutral + 1)
  }

  /** Recording a score extends the tally of a score list by that score. */
  lemma RecordExtendsTallyOf(xs: seq<real>, score: real)
    ensures Record(TallyOf(xs), score) == TallyOf(xs + [score])
  {
    assert (xs + [score])[..|xs|] == xs;
  }

  /** A cell of the comments column: text, or anything pandas reads that is
      not a string (an empty cell is a float NaN). */
  datatype Cell = Text(text: string) | NotText

  type Matcher = (string, string) -> bool

  /** `find_departments`: no department for a non-string or empty input,
      otherwise the departments whose pattern `matches` finds in the text.
      `find_departments` returns the list of a set, so no code appears twice. */
  function FindDepartments(codes: set<string>, matches: Matcher, cell: Cell): (found: set<string>)
    ensures found <= codes
    ensures cell.NotText? || cell.text == [] ==> found == {}
    ensures cell.Text? && cell.text != [] ==>
      forall code :: code in codes ==> (code in found <==> matches(code, cell.text))
  {
    match cell
    case NotText => {}
    case Text(s) => if s == [] then {} else set code | code in codes && matches(code, s)
  }

  /** `analyze_sentiment`: 0 for a non-string or empty input, otherwise the
      polarity of the text (the foreign scorer, which also stands for its
      own exception path). */
  function AnalyzeSentiment(polarity: string -> real, cell: Cell): (score: real)
    ensures cell.NotText? || cell.text == [] ==> score == 0.0
    ensures cell.Text? && cell.text != [] ==> score == polarity(cell.text)
  {
    match cell
    case NotText => 0.0
    case Text(s) => if s == [] then 0.0 else polarity(s)
  }

  type Results = map<string, Tally>

  /** Every department starts a file with nothing counted. */
  function InitialResults(codes: set<string>): (r: Results)
    ensures r.Keys == codes
    ensures forall code :: code in r ==> r[code] == TallyOf([])
  {
    map code | code in codes :: Zero
  }

  /** Whether the comment counts for department `code`. */
  predicate Mentions(codes: set<string>, matches: Matcher, cell: Cell, code: string)
  {
    cell.Text? && code in FindDepartments(codes, matches, cell)
  }

  /** The body of the comment loop: a non-string comment, or one that names
      no department, changes nothing; otherwise each department it names
      records its score once and the others are untouched. */
  function ProcessComment(codes: set<string>, matches: Matcher, polarity: string -> real,
                          results: Results, cell: Cell): (r: Results)
    requires results.Keys == codes
    ensures r.Keys == codes
    ensures cell.NotText? || FindDepartments(codes, matches, cell) == {} ==> r == results
    ensures forall code :: code in r ==>
      r[code] == if Mentions(codes, matches, cell, code)
                 then Record(results[code], AnalyzeSentiment(polarity, cell))
                 else results[code]
  {
    if cell.NotText? then results
    else
      var found := FindDepartments(codes, matches, cell);
      if found == {} then results
      else
        var score := AnalyzeSentiment(polarity, cell);
        map code | code in results :: if code in found then Record(results[code], score) else results[code]
  }

  /** The loop over the comments of a file. */
  function ProcessComments(codes: set<string>, matches: Matcher, polarity: string -> real,
                           results: Results, cells: seq<Cell>): (r: Results)
    requires results.Keys == codes
    ensures r.Keys == codes
    ensures forall code :: code in r ==> r[code].mentions >= results[code].mentions
  {
    if |cells| == 0 then results
    else
      ProcessComment(codes, matches, polarity,
                     ProcessComments(codes, matches, polarity, results, cells[..|cells| - 1]),
                     cells[|cells| - 1])
  }

  /** The scores, in order, of the comments of `cells` that mention `code`. */
  function ScoresFor(codes: set<string>, matches: Matcher, polarity: string -> real,
                     cells: seq<Cell>, code: string): seq<real>
  {
    if |cells| == 0 then []
    else
      var last := cells[|cells| - 1];
      ScoresFor(codes, matches, polarity, cells[..|cells| - 1], code) +
        (if Mentions(codes, matches, last, code) then [AnalyzeSentiment(polarity, last)] else [])
  }

  /** What the loop computes: each department's tally is the tally of the
      scores of exactly the comments that mention it. */
  lemma {:induction false} ProcessCommentsTallies(codes: set<string>, matches: Matcher,
                                                  polarity: string -> real, cells: seq<Cell>, code: string)
    requires code in codes
    ensures ProcessComments(codes, matches, polarity, InitialResults(codes), cells)[code]
            == TallyOf(ScoresFor(codes, matches, polarity, cells, code))
  {
    if |cells| > 0 {
      var init := cells[..|cells| - 1];
      var last := cells[|cells| - 1];
      ProcessCommentsTallies(codes, matches, polarity, init, code);
      var xs := ScoresFor(codes, matches, polarity, init, code);
      if Mentions(codes, matches, last, code) {
        RecordExtendsTallyOf(xs, AnalyzeSentiment(polarity, last));
      } else {
        assert xs + [] == xs;
      }
    }
  }

  /** `process_file`: `cells` is None when the file cannot be read, in which
      case every department keeps its empty tally. */
  function ProcessFile(codes: set<string>, matches: Matcher, polarity: string -> real,
                       cells: Option<seq<Cell>>): (r: Results)
    ensures r.Keys == codes
  {
    ProcessComments(codes, matches, polarity, InitialResults(codes),
                    if cells.Some? then cells.value else [])
  }

  /** The scores a file contributes to a department: none when unreadable. */
  function FileScores(codes: set<string>, matches: Matcher, polarity: string -> real,
                      cells: Option<seq<Cell>>, code: string): seq<real>
  {
    if cells.Some? then ScoresFor(codes, matches, polarity, cells.value, code) else []
  }

  /** A file's tally of a department is that of the scores of exactly the
      comments mentioning it, so its buckets add up to its mentions. */
  lemma ProcessFileTallies(codes: set<string>, matches: Matcher, polarity: string -> real,
                           cells: Option<seq<Cell>>, code: string)
    requires code in codes
    ensures ProcessFile(codes, matches, polarity, cells)[code]
            == TallyOf(FileScores(codes, matches, polarity, cells, code))
    ensures Consistent(ProcessFile(codes, matches, polarity, cells)[code])
  {
    ProcessCommentsTallies(codes, matches, polarity, if cells.Some? then cells.value else [], code);
    TallyOfConsistent(FileScores(codes, matches, polarity, cells, code));
  }

  /** With a scorer bounded by [-1, 1], so is every recorded score. */
  lemma {:induction false} FileScoresInRange(codes: set<string>, matches: Matcher, polarity: string -> real,
                                             cells: seq<Cell>, code: string)
    requires forall text :: -1.0 <= polarity(text) <= 1.0
    ensures forall x :: x in ScoresFor(codes, matches, polarity, cells, code) ==> -1.0 <= x <= 1.0
  {
    if |cells| > 0 {
      FileScoresInRange(codes, matches, polarity, cells[..|cells| - 1], code);
    }
  }
}
